=== FILE: README.md ===
# Transaction subsystem of a personal finance tracker, in Dafny

This project is a functional model of the transaction subsystem of a Next.js
personal finance tracker. Users register, sign in, and record income and
expense transactions. The model covers:

- **Transactions** (`transaction.dfy`): the `Transaction` record. `type` is a
  two-tag enum and `amount` is decimal text that is never turned into a
  number. `description` may be null. The module also has the `split("T")[0]`
  date cut used by the list and the form.
- **Http** (`http.dfy`): status codes, `Response.ok`, and the collection and
  item routes.
- **Store** (`store.dfy`): the client transaction store. It holds the cached
  list, the loading flag and the `category`/`from`/`to` filters. It builds
  query parameters, and it applies list, create, update and delete replies,
  each as one atomic transition. It also clears the filters and flags a
  redirect to login on 401.
- **TransactionsApi** (`transactions_api.dfy`): the `GET` and `POST` handlers
  of `/api/transactions`. They cover the session gate, owner-scoped listing,
  required-field validation, the owner taken from the session, and the status
  mapping.
- **RegisterApi** (`register_api.dfy`): the sign-up handler. It covers field
  validation, the unique-violation mapping, and the release of the pooled
  connection on every exit path. The handler's effects are recorded as a
  trace.
- **Form** (`form.dfy`): the transaction form's state machine. It covers the
  fixed income and expense taxonomies, field edits, the type switch, prefill
  from an edit target, and the choice of request and reply handling on submit.
- **ListView** (`list_view.dfy`): the decisions inside the list view. These are
  the Clear button, the per-row menu, the edit modal, save dispatch, and the
  amount sign and label.
- **Flows** (`flows.dfy`): end-to-end properties. The client's reply is taken
  to be the handler's answer.
- **Seqs** (`seqs.dfy`): an order-preserving `Filter`. It stands in for both
  `Array.prototype.filter` and the SQL `WHERE`.

The following are parameters of the operations, not modelled code:
- The session is an `Option<UserId>`.
- The table is a sequence of rows.
- The database's verdict on a query is an input.
- Every network round trip is a reply value passed to the transition.

Notes on the code as written, which the model follows:
- `GET` ignores the client's filters and has no `ORDER BY`. The model lists the
  owner's rows in storage order. Its contract speaks only of membership and
  multiplicity.
- A failed list query answers 400, not 500.
- `POST` answers `{success: true}`, not the persisted record. It does not check
  that the category belongs to the type, or that the type is one of the two
  tags.
- The store has no guard against stale list replies. Each fetch is one
  transition, and its reply always replaces the list.
- A duplicate e-mail on sign-up answers 400.

## Model

| member | source | states |
|---|---|---|
| Transactions.TypeTag | src/types/transaction.ts:5 | a type's tag is non-empty and reads back as the same type |
| Transactions.ParseTypeTag | src/types/transaction.ts:5 | exactly the strings "income" and "expense" are accepted as a type |
| Transactions.TypeTagInjective | src/types/transaction.ts:5 | two types share a tag iff they are the same type |
| Transactions.DatePart | src/components/TransactionList.tsx:194 | the result is a prefix of the date, contains no `T`, and stops at the end or at a `T` |
| Transactions.DatePartUnique | src/components/TransactionList.tsx:194 | any `T`-free prefix that stops at the end or at a `T` is the date part, so the cut is uniquely determined |
| Transactions.DatePartFacts | src/components/TransactionForm.tsx:66 | a date without `T` is kept whole; cutting twice equals cutting once |
| Transactions.DisplayDate | src/components/TransactionList.tsx:194 | the empty-date guard is redundant: the shown date is the date part |
| Http.ItemUrl | src/components/TransactionForm.tsx:102-104 | the item URL is the collection URL, then `/`, then the id |
| Http.ItemUrlInjective | src/container/TransactionContainer.tsx:98 | two ids give the same item URL iff they are equal, and no item URL is the collection URL |
| Store.MountRedirect | src/container/TransactionContainer.tsx:43-45 | the provider navigates to `/login` iff there is no session |
| Store.SetFilter | src/container/TransactionContainer.tsx:36-38 | a filter setter changes only its own filter; list and loading flag unchanged |
| Store.QueryParams | src/container/TransactionContainer.tsx:53-56 | the parameters hold exactly the non-empty filters, each with its own value, in the order category, from, to |
| Store.ParamsRoundTrip | src/container/TransactionContainer.tsx:53-56 | reading the parameters back gives the filters again |
| Store.QueryParamsInjective | src/container/TransactionContainer.tsx:53-56 | two filter states give the same parameters iff they are equal |
| Store.ClearFilters | src/container/TransactionContainer.tsx:129-133 | after clearing, every filter is "" and no parameter is sent; list and loading flag unchanged |
| Store.ClearFiltersIdempotent | src/container/TransactionContainer.tsx:129-133 | clearing twice equals clearing once; clearing clear filters changes nothing |
| Store.StartFetch | src/container/TransactionContainer.tsx:50-51 | while a list request is in flight, loading is true and the list is kept |
| Store.CompleteFetch | src/container/TransactionContainer.tsx:59-69 | a parsed body replaces the list with its `transactions`, or empties it if the field is absent; a thrown fetch or parse keeps it; loading ends false; redirect iff 401 |
| Store.Fetch | src/container/TransactionContainer.tsx:47-70 | without a session the fetch changes nothing; with one, loading ends false, a parsed body replaces the list (empty when `transactions` is absent), a thrown fetch keeps it, and a 401 redirects |
| Store.UnauthorizedFetchEmptiesList | src/container/TransactionContainer.tsx:59-64 | a 401 reply both redirects and empties the list |
| Store.ReplaceById | src/container/TransactionContainer.tsx:108-110 | same length; entries with the id become the record, all others are unchanged at their positions |
| Store.RemoveById | src/container/TransactionContainer.tsx:123 | an entry survives iff it was present and has a different id |
| Store.AddTransaction | src/container/TransactionContainer.tsx:78-94 | an ok parsed reply prepends the record; any other reply keeps the list; redirect iff 401 |
| Store.UpdateTransaction | src/container/TransactionContainer.tsx:96-114 | an ok parsed reply replaces exactly the entries with `t.id`, keeping length and order; any other reply keeps the list; redirect iff 401 |
| Store.DeleteTransaction | src/container/TransactionContainer.tsx:116-127 | an ok reply leaves the order-preserving filter of the list by the id, so exactly the entries with the id go; any other reply keeps the list; redirect iff 401 |
| Store.RemoveByIdConcat | src/container/TransactionContainer.tsx:123 | deleting distributes over concatenation, so survivors keep their order |
| Store.RemoveByIdIdempotent | src/container/TransactionContainer.tsx:123 | deleting twice gives the same list as deleting once |
| Store.RemoveAbsentId | src/container/TransactionContainer.tsx:123 | deleting an id no entry has keeps the list unchanged |
| Store.ReplaceByIdIdempotent | src/container/TransactionContainer.tsx:108-110 | applying the same update twice equals applying it once |
| Store.DeleteAfterUpdate | src/container/TransactionContainer.tsx:106-123 | an id-preserving update followed by a delete of that id equals the delete alone |
| Store.DeleteUndoesAdd | src/container/TransactionContainer.tsx:88-123 | deleting a just-added record whose id was not cached restores the previous state |
| TransactionsApi.ListStatus | src/app/api/transactions/route.ts:9-22 | the only ok answer is the listing, with 200; 401 exactly for the unauthorized answer; 400 exactly for a failed query |
| TransactionsApi.OwnedRows | src/app/api/transactions/route.ts:13-16 | a row is selected iff it belongs to the owner, with its multiplicity in the table |
| TransactionsApi.List | src/app/api/transactions/route.ts:6-24 | no session gives 401 whatever the table holds; a failed query gives 400; otherwise exactly the owner's rows |
| TransactionsApi.ListIsolation | src/app/api/transactions/route.ts:11-17 | rows of other users, wherever they sit among the user's own rows, never change that user's listing |
| TransactionsApi.PostStatus | src/app/api/transactions/route.ts:28-52 | the only ok answer is Created, with 201; 401 and 400 mark exactly the unauthorized and missing-field answers; 500 exactly the failed insert or unparsable body |
| TransactionsApi.RowFor | src/app/api/transactions/route.ts:32-45 | the inserted row's owner is the session's user and its other fields are the payload's |
| TransactionsApi.PostWith | src/app/api/transactions/route.ts:26-54 | 401 without session; 500 for an unparsable body; 400 with no insert when a required field is falsy; 201 iff the statement is well-formed and the database accepts; 500 with no insert when the statement is ill-formed or the database refuses; a row is inserted iff 201, and it is the payload's row under the session user |
| TransactionsApi.PostAsWritten | src/app/api/transactions/route.ts:26-54 | as written, the session gate (401) and field check (400) work, but no request ever gets 201 or inserts a row: a complete signed-in request gets 500 |
| TransactionsApi.CoffeePost | src/app/api/transactions/route.ts:41-46 | on a concrete complete payload, as written gives 500 with nothing stored, while the intended statement gives 201 and stores the row under the session user |
| TransactionsApi.Post | src/app/api/transactions/route.ts:26-54 | with one placeholder per column (the corrected `POST`): 201 iff session, complete payload and database acceptance; a row is inserted iff 201, and it holds the payload's fields under the session user; 401/400/500 with no insert otherwise |
| TransactionsApi.PostIgnoresPayloadOwner | src/app/api/transactions/route.ts:32-45 | a `user_id` in the payload never changes the outcome |
| TransactionsApi.Stored | src/types/transaction.ts:1-10 | a committed row becomes a transaction iff its type text is one of the two tags; owner and id are carried over |
| TransactionsApi.CreateThenList | src/app/api/transactions/route.ts:11-17 | with one placeholder per column (the corrected `POST`), a created transaction appears in its owner's next listing, wherever the table puts it among the other rows, and in no other user's |
| RegisterApi.RegisterStatus | src/app/api/register/route.ts:9-27 | the only ok answer is the registered user, with 200; 400 exactly for bad requests; 500 exactly for a server error or an exception outside the try block |
| RegisterApi.Guarded | src/app/api/register/route.ts:14-30 | a try/finally around the work acquires first, runs exactly the work, and releases last |
| RegisterApi.HeldAcrossNeutral | src/app/api/register/route.ts:14-30 | effects that neither connect nor release leave the number of held connections unchanged |
| RegisterApi.UnpooledDisciplined | src/app/api/register/route.ts:8-12 | an exit before `pool.connect()` succeeds, with no query, leaves no connection held |
| RegisterApi.GuardedDisciplined | src/app/api/register/route.ts:12-30 | hashing followed by one try/finally around the query never releases an unheld connection, queries only while holding one, and ends holding none |
| RegisterApi.Register | src/app/api/register/route.ts:5-31 | missing email or password gives 400 with no hashing or connection; success returns the inserted id and email; 23505 gives 400 "Email already exists"; other database errors give 500; a failed `pool.connect()` escapes the handler after hashing, with no connection held; a connection is acquired iff the body is valid and the pool connects; when it connects, the trace is hash, connect, the INSERT on the held client, release, in that order; every trace is disciplined |
| RegisterApi.ReleasedOnEveryPath | src/app/api/register/route.ts:28-30 | whenever a connection is acquired, the last effect is its release, and acquisitions equal releases |
| RegisterApi.RegisterIgnoresName | src/app/api/register/route.ts:6 | the `name` sent with the body never changes the outcome |
| Form.CategoriesFor | src/components/TransactionForm.tsx:73-74 | the income options for an income, the expense options otherwise |
| Form.CategoryValues | src/components/TransactionForm.tsx:27-43 | the income select offers salary, freelance, investment, other-income; the expense select offers food, transportation, shopping, entertainment, bills, healthcare, education, other-expense |
| Form.TaxonomyShape | src/components/TransactionForm.tsx:27-43 | 4 income and 8 expense values, each list without repeats, none shared, and "" in neither |
| Form.CategoryDeterminesType | src/components/TransactionForm.tsx:27-43 | a category fits at most one type |
| Form.InputChange | src/components/TransactionForm.tsx:76-88 | the named field takes the value; every other field and the type keep theirs |
| Form.TypeChange | src/components/TransactionForm.tsx:90-96 | the type is set and the category cleared; all other fields kept; the cleared category fits no type |
| Form.TypeSwitchInvalidatesCategory | src/components/TransactionForm.tsx:90-96 | a category that fits the old type never fits the new one |
| Form.PickOfferedCategory | src/components/TransactionForm.tsx:221-237 | `handleInputChange` with an offered value makes the category fit the type |
| Form.SelectValues | src/components/TransactionForm.tsx:221-236 | the select offers exactly the type's categories, first among them the first of the list; with a placeholder, `""` first and then those |
| Form.Shown | src/components/TransactionForm.tsx:221-223 | a controlled select shows the option equal to the state, or its first option when none is |
| Form.ChooseCategory | src/components/TransactionForm.tsx:76-88 | choosing an option runs `handleInputChange` with it only when it differs from the shown one; afterwards the select shows the chosen option |
| Form.FirstOptionNotStored | src/components/TransactionForm.tsx:90-96 | as written, a form with category `""` shows the first category, and choosing it leaves the category `""` |
| Form.PlaceholderSendsChoice | src/components/TransactionForm.tsx:221-237 | with a `""` placeholder option, a form whose category is empty or fits shows its own category, and every choice is stored |
| Form.Prefill | src/components/TransactionForm.tsx:57-71 | with no target the form is initial; otherwise title, description, type, amount and category are copied and the date is cut at its first `T` |
| Form.Edited | src/components/TransactionForm.tsx:16 | saving a form never changes a record's id, owner or creation time |
| Form.PrefillRoundTrip | src/components/TransactionForm.tsx:57-71 | saving an untouched prefilled form gives the record back, minus any time part of its date |
| Form.SubmitRequest | src/components/TransactionForm.tsx:101-104 | PUT to `/api/transactions/{id}` iff editing, else POST to `/api/transactions` |
| Form.SubmitTargetsDistinct | src/components/TransactionForm.tsx:102-104 | edits of different transactions go to different URLs |
| Form.Submit | src/components/TransactionForm.tsx:106-125 | a non-ok reply keeps the form; an ok parsed reply is handed to `onSubmit` and resets the form; redirect iff 401 |
| ListView.ClearDisabledIffNoFilters | src/components/TransactionList.tsx:143 | Clear is disabled iff all three filters are empty, i.e. iff no query parameter is sent |
| ListView.ClearThenDisabled | src/components/TransactionList.tsx:142-149 | after Clear, the Clear button is disabled |
| ListView.ToggleMenu | src/components/TransactionList.tsx:221-226 | on its own (keyboard activation), the button's handler leaves the row's menu open iff it was not the open one, and closed iff it was |
| ListView.ToggleTwice | src/components/TransactionList.tsx:223-225 | two keyboard activations of the same row's button restore a closed or same-row menu |
| ListView.ClickOutside | src/components/TransactionList.tsx:39-44 | a click outside closes the menu and changes nothing else |
| ListView.MenuButtonClick | src/components/TransactionList.tsx:39-45 | a mouse click on a row's menu button always leaves that row's menu open, because the document listener closes it on mousedown before the click handler reads it |
| ListView.MouseCannotCloseMenu | src/components/TransactionList.tsx:221-233 | from a closed menu, two keyboard activations close it again, but two mouse clicks leave it open |
| ListView.ClickEdit | src/components/TransactionList.tsx:238-242 | Edit makes the row the target, opens the modal and closes the menu |
| ListView.ClickDelete | src/components/TransactionList.tsx:249-252 | Delete calls the store's delete with the row's id and closes the menu |
| ListView.CancelModal | src/components/TransactionList.tsx:274 | closing the modal keeps the edit target |
| ListView.OpenAdd | src/components/TransactionList.tsx:70-71 | the add button only opens the modal; the edit target is kept |
| ListView.OpenAddFresh | src/components/TransactionList.tsx:70-71 | the intended add button opens an empty form that saves as an add |
| ListView.SaveTarget | src/components/TransactionList.tsx:51-55 | a save goes to update iff there is an edit target |
| ListView.ModalTitle | src/components/TransactionList.tsx:275 | the modal says "Edit Transaction" iff a save would update |
| ListView.AddAfterCancelledEditUpdates | src/components/TransactionList.tsx:270-281 | as written, Edit, Cancel, then "+ Add Transaction" opens the edit form again and saves as an update |
| ListView.AddAfterCancelledEditAdds | src/components/TransactionList.tsx:70-71 | with the intended button, the same clicks save as an add |
| ListView.Save | src/components/TransactionList.tsx:50-58 | update iff an edit target exists, else add; afterwards the modal is closed and the target cleared |
| ListView.Display | src/components/TransactionList.tsx:154-160 | a spinner iff loading; rows iff any are cached; "No transactions found" otherwise |
| ListView.FirstRender | src/container/TransactionContainer.tsx:33-38 | on the first render the list says "No transactions found", Clear is disabled, and the closed modal would save as an add |
| ListView.AmountText | src/components/TransactionList.tsx:209-210 | an expense's amount is prefixed with `-`; an income's is shown verbatim |
| ListView.TypeLabel | src/components/TransactionList.tsx:213 | the label is "Expense" iff the type is expense and "Income" iff income |
| ListView.DisplayRoundTrip | src/components/TransactionList.tsx:209-213 | label and amount text together give back the type and the exact amount text |
| Flows.ListReply | src/app/api/transactions/route.ts:17-22 | only a 200 body carries `transactions`, and it carries the listed rows |
| Flows.FetchShowsOwnedRows | src/app/api/transactions/route.ts:6-17 | a signed-in fetch shows exactly the user's rows, whatever filters are set |
| Flows.FetchRejected | src/container/TransactionContainer.tsx:59-64 | a server-side 401 redirects and empties the list; a failed query empties it without redirect |
| Flows.FormPayload | src/components/TransactionForm.tsx:106-110 | the posted body carries the form's six fields and never an owner |
| Flows.FormPassesValidation | src/app/api/transactions/route.ts:34-40 | a form passes the required-field check iff title, amount, category and date are filled |
| Flows.InitialFormRejected | src/components/TransactionForm.tsx:18-25 | the initial form is answered 400 and inserts nothing |
| Flows.FormCreatesOwnedRow | src/app/api/transactions/route.ts:32-46 | with one placeholder per column (the corrected `POST`), a filled form creates a row owned by the session user, with the form's values and type tag |
| Flows.ShownCategoryNotSent | src/components/TransactionForm.tsx:90-96 | as written, after a switch to expense the select shows "food", choosing it sends `""`, and the form is refused with 400 |
| Flows.PlaceholderCategorySent | src/components/TransactionForm.tsx:221-237 | with a placeholder option, the same clicks store "food", and the corrected `POST` creates the expense |
| Flows.SecondAddRefused | src/components/TransactionList.tsx:50-54 | the store's second POST carries the form's reply `{success: true}`, is answered 400, and leaves the store's list and redirect flag unchanged |
| Flows.FormRowStores | src/types/transaction.ts:1-10 | with one placeholder per column (the corrected `POST`), the row a form creates is stored with the form's type, the session owner and the assigned id |

## Left out

- Rendering, styling, icons and the modal component are left out. So are the
  login, logout, home and dashboard pages: they are presentation and
  next-auth redirects. The dashboard totals are hard-coded text.
- Authentication internals (`getServerSession`, `useSession`, `signIn`) are
  foreign code. The session is an `Option<UserId>` input.
- TransactionsApi.List, TransactionsApi.Post, TransactionsApi.ListIsolation,
  TransactionsApi.CreateThenList: the owner scoping assumes that
  `session.user.id` is the signed-in user's id. The shown `authOptions`
  (src/app/api/auth/[...nextauth]/route.ts:7-46) defines no `callbacks`, so
  next-auth's default session (name, email, image) carries no id, and the
  handlers would read `undefined` there. The model does not cover that case.
- bcrypt, the `pg` pool singleton (`src/lib/db.ts`) and the test-db route are
  foreign libraries. Hashing is one `Hash` effect, and the pool is the
  `Database` input.
- Async interleaving of requests and stale list replies are left out. Each
  round trip is one atomic transition that takes its reply. The code has no
  request sequencing, so the model invents none.
- The literal SQL text is reduced to its column and placeholder counts, which
  is all the finding needs.
- The store reads `data.transaction` from create and update replies, but the
  POST handler answers `{success: true}`. The store is modelled against the
  record it expects (`Store.Reply.saved`). As the program is wired, the
  store's own POST never gets an ok reply, so nothing is ever prepended (see
  the next line). A new row reaches the cached list only through a re-fetch.
- Saving a form sends two requests. The form sends the PUT or POST, and its
  `onSubmit` hands the parsed reply to the list's save, which sends that reply
  as the body of a second request. After an add the reply is
  `{success: true}`, so the store's POST carries no required field and is
  answered 400, and the store keeps its list (`Flows.SecondAddRefused`). With
  the POST as written, the form's own request already gets 500, and
  `onSubmit` is never called. The two steps are modelled separately, as
  `Form.Submit` and `ListView.Save`.
- The PUT and DELETE route handlers are left out: they are not part of this
  model. Only their client-side effects are modelled.
- The password-confirmation check of the sign-up page is a UI guard and is
  left out.
- `URLSearchParams` percent-encoding is left out. The query is modelled as its
  ordered key/value list.
- JSON values other than strings are left out. A number or boolean sent for a
  required field cannot be represented.
- A `req.json()` failure in the sign-up handler is left out. It happens
  outside its try block, and bcrypt failures are foreign.
- TransactionsApi.List: the contract states membership and multiplicity only,
  not order. The SQL has no `ORDER BY`, so no order is promised.
- TransactionsApi.Stored: `POST` checks only that `type` is present
  (src/app/api/transactions/route.ts:35), so a payload such as
  `type: "transfer"` is inserted by the corrected `POST`, but `Stored` gives
  `None` for it, because the record's type admits only the two tags. In the
  program, `GET` would list that row, and the list would show its amount
  without `-` under "Income" (src/components/TransactionList.tsx:209-213).
  The model drops such rows instead of carrying free type text.

## Findings

| source | as written | input that shows it | evidently intended | confidence | as-written member | corrected member |
|---|---|---|---|---|---|---|
| src/app/api/transactions/route.ts:41-46 | the INSERT lists 7 columns but its VALUES clause has only `$1`..`$6`, while 7 parameters are bound | any signed-in POST with all required fields, e.g. type "expense", amount "4.50", category "food", date "2024-01-05", title "Coffee" | one placeholder per column, so the row is inserted and 201 returned | high, not executed | TransactionsApi.CoffeePost | TransactionsApi.Post |
| src/components/TransactionList.tsx:70-71 | "+ Add Transaction" only opens the modal; cancelling an edit keeps the edit target | click Edit on a row, cancel the modal, click "+ Add Transaction" | the add button opens an empty form whose save is an add | medium, not executed | ListView.AddAfterCancelledEditUpdates | ListView.OpenAddFresh |
| src/components/TransactionList.tsx:39-45 | the document `mousedown` listener closes the open menu whenever the target is outside the menu element, and the row's menu button is a sibling of that element, not inside it | open a row's menu, then click its menu button again with the mouse | the button toggles, so a second click closes the menu | medium (depends on DOM and React event order), not executed | ListView.MouseCannotCloseMenu | ListView.ToggleMenu |
| src/components/TransactionForm.tsx:221-237 | the category select has no option with value `""`, yet the initial form and every type switch set the category to `""`, so the browser shows the first category as selected | start a new transaction or switch its type, leave "Salary" or "Food & Dining" as shown (or choose it again), fill the other fields, submit | the category sent is the one shown: a `""` placeholder option forces a real choice | medium (depends on browser select behaviour), not executed | Flows.ShownCategoryNotSent | Form.PlaceholderSendsChoice |

=== FILE: flows.dfy ===
/** End-to-end properties: the client store and the form talking to the
    route handlers, with the handler's answer fed back as the client's reply. */
module Flows {
  import opened Transactions
  import Http
  import Store
  import TransactionsApi
  import Form

  /** The JSON body the client parses out of a list answer: only a 200 carries
      `transactions`. */
  function ListReply(r: TransactionsApi.ListResponse): (o: Store.FetchOutcome)
    ensures o.FetchReplied? && o.status == TransactionsApi.ListStatus(r) && o.body.Some?
    ensures o.body.value.transactions.Some? <==> r.Listed?
    ensures r.Listed? ==> o.body.value.transactions.value == r.rows
  {
    var txs := if r.Listed? then Some(r.rows) else None;
    Store.FetchReplied(TransactionsApi.ListStatus(r), Some(Store.ListBody(txs)))
  }

  /** A signed-in fetch shows exactly the user's rows, whatever filters are set:
      the filters travel as query parameters that the handler never reads. */
  lemma FetchShowsOwnedRows(s: Store.StoreState, f: Store.Filters, owner: UserId, db: seq<Transaction>)
    ensures var r := Store.Fetch(s.(filters := f), Some(owner), ListReply(TransactionsApi.List(Some(owner), db, true)));
      && (forall t :: t in r.state.transactions <==> t in db && t.userId == owner)
      && r.state.transactions == Store.Fetch(s, Some(owner), ListReply(TransactionsApi.List(Some(owner), db, true))).state.transactions
      && !r.state.loading && !r.redirectToLogin && r.state.filters == f
  {
  }

  /** When the server sees no session the client is sent to `/login` with an
      empty list; when the query fails the list is emptied without a redirect. */
  lemma FetchRejected(s: Store.StoreState, clientSession: UserId, owner: UserId, db: seq<Transaction>)
    ensures var r := Store.Fetch(s, Some(clientSession), ListReply(TransactionsApi.List(None, db, true)));
      r.redirectToLogin && r.state.transactions == []
    ensures var r := Store.Fetch(s, Some(clientSession), ListReply(TransactionsApi.List(Some(owner), db, false)));
      !r.redirectToLogin && r.state.transactions == []
  {
  }

  /** The JSON body the form posts: its six fields, never an owner. */
  function FormPayload(s: Form.FormState): (p: TransactionsApi.Payload)
    ensures p.userId.None?
    ensures p.txType == Some(TypeTag(s.txType)) && p.description == s.description
    ensures p.title == Some(s.title) && p.amount == Some(s.amount)
    ensures p.category == Some(s.category) && p.date == Some(s.date)
  {
    TransactionsApi.Payload(Some(TypeTag(s.txType)), Some(s.amount), Some(s.category),
                            s.description, Some(s.title), Some(s.date), None)
  }

  /** A form passes the handler's required-field check exactly when title,
      amount, category and date are filled in; the type always is. */
  lemma FormPassesValidation(s: Form.FormState)
    ensures TransactionsApi.HasRequiredFields(FormPayload(s)) <==>
      s.title != "" && s.amount != "" && s.category != "" && s.date != ""
  {
  }

  /** The initial form is always rejected with 400 and inserts nothing. */
  lemma InitialFormRejected(owner: UserId, dbAccepts: bool)
    ensures TransactionsApi.Post(Some(owner), TransactionsApi.Json(FormPayload(Form.InitialForm)), dbAccepts)
      == TransactionsApi.PostRun(TransactionsApi.MissingFields, None)
  {
  }

  /** A filled-in form creates a row owned by the session's user, carrying the
      form's values and the tag of its type. */
  lemma FormCreatesOwnedRow(s: Form.FormState, owner: UserId)
    requires s.title != "" && s.amount != "" && s.category != "" && s.date != ""
    ensures var r := TransactionsApi.Post(Some(owner), TransactionsApi.Json(FormPayload(s)), true);
      && r.response == TransactionsApi.Created
      && r.inserted == Some(TransactionsApi.NewRow(owner, TypeTag(s.txType), s.amount, s.category,
                                                   s.description, s.title, s.date))
  {
  }

  /** The row a form creates is stored as a transaction with the form's type. */
  lemma FormRowStores(s: Form.FormState, owner: UserId, id: Id, createdAt: string)
    requires s.title != "" && s.amount != "" && s.category != "" && s.date != ""
    ensures var row := TransactionsApi.Post(Some(owner), TransactionsApi.Json(FormPayload(s)), true).inserted.value;
      var t := TransactionsApi.Stored(row, id, createdAt);
      t.Some? && t.value.txType == s.txType && t.value.userId == owner && t.value.id == id
  {
  }

  /** As written: a user switches to expense and picks "Food & Dining", the
      option the select already shows. No change event fires, the category
      stays `""`, and the handler refuses the form. */
  lemma ShownCategoryNotSent(s: Form.FormState, owner: UserId, dbAccepts: bool)
    requires s.title != "" && s.amount != "" && s.date != ""
    ensures var f := Form.TypeChange(s, Expense);
      Form.Shown(Form.SelectValues(Expense, false), f.category) == "food"
    ensures var f := Form.ChooseCategory(Form.TypeChange(s, Expense), false, 0);
      TransactionsApi.Post(Some(owner), TransactionsApi.Json(FormPayload(f)), dbAccepts)
        == TransactionsApi.PostRun(TransactionsApi.MissingFields, None)
  {
  }

  /** With a placeholder option the same clicks store "food", and the form
      creates a food expense. */
  lemma PlaceholderCategorySent(s: Form.FormState, owner: UserId)
    requires s.title != "" && s.amount != "" && s.date != ""
    ensures var f := Form.ChooseCategory(Form.TypeChange(s, Expense), true, 1);
      && f.category == "food"
      && TransactionsApi.Post(Some(owner), TransactionsApi.Json(FormPayload(f)), true).response == TransactionsApi.Created
  {
  }

  /** The body `{success: true}` read as a transaction payload: none of the
      fields is present. */
  const SuccessBody := TransactionsApi.Payload(None, None, None, None, None, None, None)

  /** The list's save posts again what `onSubmit` received. After an add that
      is the POST's `{success: true}`, which carries no required field, so the
      second request is refused with 400, and the store, which throws on a
      non-ok reply, keeps its list and does not redirect. */
  lemma SecondAddRefused(s: Store.StoreState, owner: UserId, dbAccepts: bool, saved: Option<Transaction>)
    ensures TransactionsApi.Post(Some(owner), TransactionsApi.Json(SuccessBody), dbAccepts)
      == TransactionsApi.PostRun(TransactionsApi.MissingFields, None)
    ensures var code := TransactionsApi.PostStatus(TransactionsApi.MissingFields);
      Store.AddTransaction(s, Store.Replied(code, saved)) == Store.Step(s, false)
  {
  }
}

=== FILE: form.dfy ===
/** The transaction form's state machine (src/components/TransactionForm.tsx):
    the category taxonomies, field edits, the type switch, prefill from an
    edit target, and what a submit sends and does with the reply. */
module Form {
  import opened Transactions
  import Http

  /** The editable part of a transaction. `id`, `user_id` and `created_at` are
      not fields of the form, so the client cannot supply them. */
  datatype FormState = FormState(
    title: string,
    description: Option<string>,
    txType: TxType,
    amount: string,
    category: string,
    date: string
  )

  /** A fresh form: type income, every text field empty. */
  const InitialForm := FormState("", Some(""), Income, "", "", "")

  // ---------------------------------------------------------------------------
  // Category taxonomies

  datatype CategoryOption = CategoryOption(value: string, caption: string)

  const IncomeCategories: seq<CategoryOption> := [
    CategoryOption("salary", "Salary"),
    CategoryOption("freelance", "Freelance"),
    CategoryOption("investment", "Investment"),
    CategoryOption("other-income", "Other Income")
  ]

  const ExpenseCategories: seq<CategoryOption> := [
    CategoryOption("food", "Food & Dining"),
    CategoryOption("transportation", "Transportation"),
    CategoryOption("shopping", "Shopping"),
    CategoryOption("entertainment", "Entertainment"),
    CategoryOption("bills", "Bills & Utilities"),
    CategoryOption("healthcare", "Healthcare"),
    CategoryOption("education", "Education"),
    CategoryOption("other-expense", "Other Expense")
  ]

  function Values(cs: seq<CategoryOption>): (vs: seq<string>)
    ensures |vs| == |cs|
    ensures forall i :: 0 <= i < |cs| ==> vs[i] == cs[i].value
  {
    seq(|cs|, i requires 0 <= i < |cs| => cs[i].value)
  }

  /** The options the category select offers for a type. */
  function CategoriesFor(t: TxType): (cs: seq<CategoryOption>)
    ensures t == Income ==> cs == IncomeCategories
    ensures t == Expense ==> cs == ExpenseCategories
  {
    if t == Income then IncomeCategories else ExpenseCategories
  }

  /** Does `category` belong to the taxonomy of `t`? */
  predicate CategoryFits(t: TxType, category: string) {
    category in Values(CategoriesFor(t))
  }

  const IncomeValues: seq<string> := ["salary", "freelance", "investment", "other-income"]

  const ExpenseValues: seq<string> :=
    ["food", "transportation", "shopping", "entertainment", "bills", "healthcare", "education", "other-expense"]

  /** The values the two category selects offer. */
  lemma CategoryValues()
    ensures Values(IncomeCategories) == IncomeValues
    ensures Values(ExpenseCategories) == ExpenseValues
  {
  }

  /** No value occurs twice in a list. */
  predicate Distinct(vs: seq<string>) {
    forall i, j :: 0 <= i < j < |vs| ==> vs[i] != vs[j]
  }

  /** The taxonomies are fixed enumerations of 4 and 8 distinct values, none
      shared, and "" is in neither. */
  lemma TaxonomyShape()
    ensures |Values(IncomeCategories)| == 4 && |Values(ExpenseCategories)| == 8
    ensures Distinct(Values(IncomeCategories)) && Distinct(Values(ExpenseCategories))
    ensures forall c :: c in Values(IncomeCategories) ==> c !in Values(ExpenseCategories)
    ensures !CategoryFits(Income, "") && !CategoryFits(Expense, "")
  {
  }

  /** A category belongs to at most one type, so it fixes the type. */
  lemma CategoryDeterminesType(a: TxType, b: TxType, c: string)
    requires CategoryFits(a, c) && CategoryFits(b, c)
    ensures a == b
  {
  }

  // ---------------------------------------------------------------------------
  // Edits

  /** The inputs that carry a `name` and go through `handleInputChange`. */
  datatype Field = TitleField | DescriptionField | AmountField | CategoryField | DateField

  /** The text an input shows for a field; `None` only for a null description. */
  function FieldText(s: FormState, f: Field): Option<string> {
    match f
    case TitleField => Some(s.title)
    case DescriptionField => s.description
    case AmountField => Some(s.amount)
    case CategoryField => Some(s.category)
    case DateField => Some(s.date)
  }

  /** `handleInputChange`: the named field takes the input's value; every other
      field, and the type, keep theirs. */
  function InputChange(s: FormState, f: Field, v: string): (r: FormState)
    ensures FieldText(r, f) == Some(v)
    ensures forall g :: g != f ==> FieldText(r, g) == FieldText(s, g)
    ensures r.txType == s.txType
  {
    match f
    case TitleField => s.(title := v)
    case DescriptionField => s.(description := Some(v))
    case AmountField => s.(amount := v)
    case CategoryField => s.(category := v)
    case DateField => s.(date := v)
  }

  /** `handleTypeChange`: the type is set and the category cleared; every
      other field keeps its value. */
  function TypeChange(s: FormState, t: TxType): (r: FormState)
    ensures r.txType == t && r.category == ""
    ensures forall g :: g != CategoryField ==> FieldText(r, g) == FieldText(s, g)
    ensures !CategoryFits(r.txType, r.category)
  {
    TaxonomyShape();
    s.(txType := t, category := "")
  }

  /** Why the category is cleared: a category that fits one type never fits
      the other. */
  lemma TypeSwitchInvalidatesCategory(s: FormState, t: TxType)
    requires t != s.txType && CategoryFits(s.txType, s.category)
    ensures !CategoryFits(t, s.category)
  {
  }

  /** `handleInputChange` run with one of the offered values makes the
      category fit the type. */
  lemma PickOfferedCategory(s: FormState, i: nat)
    requires i < |CategoriesFor(s.txType)|
    ensures CategoryFits(s.txType, InputChange(s, CategoryField, CategoriesFor(s.txType)[i].value).category)
  {
  }

  // ---------------------------------------------------------------------------
  // The category select in the browser

  /** The option values of the category select for a type: as written, or with
      a leading `""` placeholder option. */
  function SelectValues(t: TxType, placeholder: bool): (vs: seq<string>)
    ensures |vs| > 0
    ensures forall c :: c in vs <==> CategoryFits(t, c) || (placeholder && c == "")
    ensures placeholder ==> vs[0] == ""
    ensures !placeholder ==> vs[0] == CategoriesFor(t)[0].value
  {
    (if placeholder then [""] else []) + Values(CategoriesFor(t))
  }

  /** The option a controlled `<select>` shows: the one whose value is the
      state's, or the first option when none is. */
  function Shown(options: seq<string>, value: string): (c: string)
    requires |options| > 0
    ensures c in options
    ensures value in options ==> c == value
    ensures value !in options ==> c == options[0]
  {
    if value in options then value else options[0]
  }

  /** The user chooses option `i`. The browser fires `change`, and so
      `handleInputChange` runs, only when that option is not the one already
      shown. */
  function ChooseCategory(s: FormState, placeholder: bool, i: nat): (r: FormState)
    requires i < |SelectValues(s.txType, placeholder)|
    ensures var vs := SelectValues(s.txType, placeholder);
      vs[i] != Shown(vs, s.category) ==> r == InputChange(s, CategoryField, vs[i])
    ensures var vs := SelectValues(s.txType, placeholder);
      vs[i] == Shown(vs, s.category) ==> r == s
    ensures r.txType == s.txType
    ensures Shown(SelectValues(r.txType, placeholder), r.category) == SelectValues(s.txType, placeholder)[i]
  {
    var vs := SelectValues(s.txType, placeholder);
    if vs[i] == Shown(vs, s.category) then s else InputChange(s, CategoryField, vs[i])
  }

  /** As written, a form whose category is `""` (the initial form, and every
      form right after a type switch) shows the first category as selected,
      yet choosing it leaves the category `""`. */
  lemma FirstOptionNotStored(s: FormState)
    requires s.category == ""
    ensures Shown(SelectValues(s.txType, false), s.category) == CategoriesFor(s.txType)[0].value
    ensures ChooseCategory(s, false, 0).category == ""
  {
  }

  /** With a `""` placeholder option, every form the page reaches (category
      empty or fitting its type) shows its own category, and any choice is
      what gets stored. */
  lemma PlaceholderSendsChoice(s: FormState, i: nat)
    requires s.category == "" || CategoryFits(s.txType, s.category)
    requires i < |SelectValues(s.txType, true)|
    ensures Shown(SelectValues(s.txType, true), s.category) == s.category
    ensures ChooseCategory(s, true, i).category == SelectValues(s.txType, true)[i]
    ensures i > 0 ==> CategoryFits(s.txType, ChooseCategory(s, true, i).category)
  {
  }

  // ---------------------------------------------------------------------------
  // Prefill

  /** The effect on `editingTransaction`: copy the editable fields of the edit
      target, the date cut at `T`; with no target, a fresh form. */
  function Prefill(editing: Option<Transaction>): (r: FormState)
    ensures editing.None? ==> r == InitialForm
    ensures editing.Some? ==>
      var t := editing.value;
      && r.title == t.title && r.description == t.description && r.txType == t.txType
      && r.amount == t.amount && r.category == t.category
      && r.date <= t.date && 'T' !in r.date
      && (|r.date| < |t.date| ==> t.date[|r.date|] == 'T')
  {
    match editing
    case None => InitialForm
    case Some(t) => FormState(t.title, t.description, t.txType, t.amount, t.category, DisplayDate(t.date))
  }

  /** The record a PUT of form `s` describes for target `t`: the editable
      fields replaced, `id`, `user_id` and `created_at` kept. */
  function Edited(t: Transaction, s: FormState): (r: Transaction)
    ensures r.id == t.id && r.userId == t.userId && r.createdAt == t.createdAt
  {
    t.(title := s.title, description := s.description, txType := s.txType,
       amount := s.amount, category := s.category, date := s.date)
  }

  /** Saving an edit without touching the form leaves the record as it was,
      except that a time part of the date is dropped. */
  lemma PrefillRoundTrip(t: Transaction)
    ensures Edited(t, Prefill(Some(t))) == t.(date := DatePart(t.date))
    ensures 'T' !in t.date ==> Edited(t, Prefill(Some(t))) == t
  {
  }

  // ---------------------------------------------------------------------------
  // Submit

  /** The request `handleSubmit` sends: PUT to the target's item URL when
      editing, POST to the collection otherwise. The body is the form state. */
  function SubmitRequest(editing: Option<Transaction>): (r: Http.Request)
    ensures r.verb == Http.Put <==> editing.Some?
    ensures editing.None? ==> r == Http.Request(Http.Post, Http.CollectionUrl)
    ensures editing.Some? ==> |r.url| == |Http.CollectionUrl| + 1 + |editing.value.id|
    ensures editing.Some? ==> r.url[..|Http.CollectionUrl| + 1] == Http.CollectionUrl + "/"
    ensures editing.Some? ==> r.url[|Http.CollectionUrl| + 1..] == editing.value.id
    ensures editing.Some? ==> r.url != Http.CollectionUrl
  {
    match editing
    case None => Http.Request(Http.Post, Http.CollectionUrl)
    case Some(t) =>
      Http.ItemUrlInjective(t.id, t.id);
      Http.Request(Http.Put, Http.ItemUrl(t.id))
  }

  /** Two different edit targets are never sent to the same URL. */
  lemma SubmitTargetsDistinct(a: Transaction, b: Transaction)
    requires a.id != b.id
    ensures SubmitRequest(Some(a)).url != SubmitRequest(Some(b)).url
  {
  }

  /** How a submit ends: `fetch` rejects, or a reply arrives whose body parses
      (`Some`) or not. `body` models the record `onSubmit` expects; what the
      POST handler actually answers, and so what reaches `onSubmit`, is
      `{success: true}`. */
  datatype SubmitReply = NoReply | Replied(status: int, body: Option<Transaction>)

  /** The form after a submit, whether it asked for `/login`, and the record
      handed to `onSubmit`, if any. */
  datatype SubmitStep = SubmitStep(form: FormState, redirectToLogin: bool, delivered: Option<Transaction>)

  /** `handleSubmit` after the request: a non-ok reply leaves the form as it
      was; an ok reply hands the parsed body to `onSubmit` and resets the form. */
  function Submit(s: FormState, rep: SubmitReply): (r: SubmitStep)
    ensures r.redirectToLogin <==> rep.Replied? && rep.status == Http.StatusUnauthorized
    ensures r.delivered.Some? <==> rep.Replied? && Http.IsOk(rep.status) && rep.body.Some?
    ensures r.delivered.Some? ==> r.delivered == rep.body && r.form == InitialForm
    ensures r.delivered.None? ==> r.form == s
  {
    match rep
    case NoReply => SubmitStep(s, false, None)
    case Replied(status, body) =>
      var redirect := status == Http.StatusUnauthorized;
      if Http.IsOk(status) && body.Some? then SubmitStep(InitialForm, redirect, body)
      else SubmitStep(s, redirect, None)
  }
}

=== FILE: http.dfy ===
/** The slice of HTTP the transaction subsystem relies on: status codes,
    `Response.ok`, request methods and the transaction routes. */
module Http {

  const StatusOk := 200
  const StatusCreated := 201
  const StatusBadRequest := 400
  const StatusUnauthorized := 401
  const StatusInternalError := 500

  /** `Response.ok` of the Fetch standard: the status is in the range 200-299. */
  predicate IsOk(status: int) {
    200 <= status <= 299
  }

  datatype Method = Get | Post | Put | Delete

  datatype Request = Request(verb: Method, url: string)

  /** The collection route that lists and creates transactions. */
  const CollectionUrl: string := "/api/transactions"

  /** The item route `/api/transactions/{id}` used to update and delete one transaction. */
  function ItemUrl(id: string): (url: string)
    ensures |url| == |CollectionUrl| + 1 + |id|
    ensures CollectionUrl <= url
    ensures url[|CollectionUrl|..] == "/" + id
  {
    CollectionUrl + "/" + id
  }

  /** Different transactions are addressed by different item URLs, and no item
      URL is the collection URL. */
  lemma ItemUrlInjective(a: string, b: string)
    ensures ItemUrl(a) == ItemUrl(b) <==> a == b
    ensures ItemUrl(a) != CollectionUrl
  {
    if ItemUrl(a) == ItemUrl(b) {
      assert ItemUrl(a)[|CollectionUrl| + 1..] == a;
      assert ItemUrl(b)[|CollectionUrl| + 1..] == b;
    }
    assert |ItemUrl(a)| > |CollectionUrl|;
  }
}

=== FILE: list_view.dfy ===
/** The decisions inside the transaction list view
    (src/components/TransactionList.tsx): filter clearing, the per-row menu,
    the edit modal, where a save goes, and how a row shows its amount. */
module ListView {
  import opened Transactions
  import Store

  /** The view's own state: whether the modal is open, the transaction being
      edited, and the row whose menu is open (at most one). */
  datatype ViewState = ViewState(modalOpen: bool, editing: Option<Transaction>, openMenu: Option<Id>)

  const InitialView := ViewState(false, None, None)

  // ---------------------------------------------------------------------------
  // Filters

  /** The Clear button is disabled exactly when no filter is set. */
  predicate ClearDisabled(f: Store.Filters) {
    f.from == "" && f.to == "" && f.category == ""
  }

  lemma ClearDisabledIffNoFilters(f: Store.Filters)
    ensures ClearDisabled(f) <==> f == Store.NoFilters
    ensures ClearDisabled(f) <==> Store.QueryParams(f) == []
  {
  }

  /** After clearing, the Clear button is disabled. */
  lemma ClearThenDisabled(s: Store.StoreState)
    ensures ClearDisabled(Store.ClearFilters(s).filters)
  {
  }

  // ---------------------------------------------------------------------------
  // Row menu

  /** The menu button's click handler on its own, as a keyboard activation
      runs it: closes that row's menu if it is the open one, otherwise opens it
      (closing any other). This is the toggle the handler is written to be. */
  function ToggleMenu(v: ViewState, id: Id): (r: ViewState)
    ensures r.openMenu == Some(id) <==> v.openMenu != Some(id)
    ensures r.openMenu.None? <==> v.openMenu == Some(id)
    ensures r.modalOpen == v.modalOpen && r.editing == v.editing
  {
    v.(openMenu := if v.openMenu == Some(id) then None else Some(id))
  }

  /** Activating the same row's button twice, without the mouse, restores a
      closed or same-row menu. */
  lemma ToggleTwice(v: ViewState, id: Id)
    requires v.openMenu.None? || v.openMenu == Some(id)
    ensures ToggleMenu(ToggleMenu(v, id), id) == v
  {
  }

  /** A mouse-down outside the open menu closes it. */
  function ClickOutside(v: ViewState): (r: ViewState)
    ensures r.openMenu.None?
    ensures r.modalOpen == v.modalOpen && r.editing == v.editing
  {
    v.(openMenu := None)
  }

  /** A mouse click on a row's menu button. The document's `mousedown`
      listener runs first, and the button is not inside the menu element the
      ref points to, so the open menu closes; the click handler then reads the
      closed state and opens the row's menu. The button therefore never closes
      its own menu. */
  function MenuButtonClick(v: ViewState, id: Id): (r: ViewState)
    ensures r.openMenu == Some(id)
    ensures r.modalOpen == v.modalOpen && r.editing == v.editing
  {
    ToggleMenu(ClickOutside(v), id)
  }

  /** The discrepancy on one input: from a closed menu, two keyboard
      activations close it again, but two mouse clicks leave it open. */
  lemma MouseCannotCloseMenu(v: ViewState, id: Id)
    requires v.openMenu.None?
    ensures ToggleMenu(ToggleMenu(v, id), id).openMenu.None?
    ensures MenuButtonClick(MenuButtonClick(v, id), id).openMenu == Some(id)
  {
  }

  /** The menu's Edit entry: the row becomes the edit target, the modal opens
      and the menu closes. */
  function ClickEdit(v: ViewState, t: Transaction): (r: ViewState)
    ensures r.editing == Some(t) && r.modalOpen && r.openMenu.None?
  {
    ViewState(true, Some(t), None)
  }

  /** The menu's Delete entry: the store deletes the row's id and the menu
      closes; the modal and the edit target are untouched. */
  function ClickDelete(v: ViewState, s: Store.StoreState, t: Transaction, rep: Store.Reply): (r: (ViewState, Store.Step))
    ensures r.0.openMenu.None? && r.0.modalOpen == v.modalOpen && r.0.editing == v.editing
    ensures r.1 == Store.DeleteTransaction(s, t.id, rep)
  {
    (v.(openMenu := None), Store.DeleteTransaction(s, t.id, rep))
  }

  // ---------------------------------------------------------------------------
  // Modal and save

  /** The modal's close button and the form's Cancel: only the modal closes. */
  function CancelModal(v: ViewState): (r: ViewState)
    ensures !r.modalOpen && r.editing == v.editing && r.openMenu == v.openMenu
  {
    v.(modalOpen := false)
  }

  /** "+ Add Transaction" as written: it opens the modal and nothing else. */
  function OpenAdd(v: ViewState): (r: ViewState)
    ensures r.modalOpen && r.editing == v.editing && r.openMenu == v.openMenu
  {
    v.(modalOpen := true)
  }

  /** "+ Add Transaction" as evidently intended: it opens an empty form. */
  function OpenAddFresh(v: ViewState): (r: ViewState)
    ensures r.modalOpen && r.editing.None? && r.openMenu == v.openMenu
    ensures SaveTarget(r) == AddTarget && ModalTitle(r) == "Add Transaction"
  {
    v.(modalOpen := true, editing := None)
  }

  datatype SaveTargetKind = AddTarget | UpdateTarget

  /** Where `handleSaveTransaction` sends a save. */
  function SaveTarget(v: ViewState): (k: SaveTargetKind)
    ensures k == UpdateTarget <==> v.editing.Some?
  {
    if v.editing.Some? then UpdateTarget else AddTarget
  }

  function ModalTitle(v: ViewState): (title: string)
    ensures title == "Edit Transaction" <==> SaveTarget(v) == UpdateTarget
  {
    if v.editing.Some? then "Edit Transaction" else "Add Transaction"
  }

  /** With the code as written, cancelling an edit and then pressing
      "+ Add Transaction" opens the edit form again and the save updates the
      old target instead of adding. */
  lemma AddAfterCancelledEditUpdates(v: ViewState, t: Transaction)
    ensures var w := OpenAdd(CancelModal(ClickEdit(v, t)));
      w.modalOpen && w.editing == Some(t)
      && SaveTarget(w) == UpdateTarget && ModalTitle(w) == "Edit Transaction"
  {
  }

  /** With the intended button the same clicks lead to an add. */
  lemma AddAfterCancelledEditAdds(v: ViewState, t: Transaction)
    ensures var w := OpenAddFresh(CancelModal(ClickEdit(v, t)));
      w.modalOpen && SaveTarget(w) == AddTarget && ModalTitle(w) == "Add Transaction"
  {
  }

  /** `handleSaveTransaction(tx)`: update when there is an edit target, add
      otherwise; then the modal closes and the edit target is cleared. */
  function Save(v: ViewState, s: Store.StoreState, tx: Transaction, rep: Store.Reply): (r: (ViewState, Store.Step))
    ensures !r.0.modalOpen && r.0.editing.None? && r.0.openMenu == v.openMenu
    ensures SaveTarget(v) == UpdateTarget ==> r.1 == Store.UpdateTransaction(s, tx, rep)
    ensures SaveTarget(v) == AddTarget ==> r.1 == Store.AddTransaction(s, rep)
    ensures SaveTarget(r.0) == AddTarget
  {
    var step := if v.editing.Some? then Store.UpdateTransaction(s, tx, rep) else Store.AddTransaction(s, rep);
    (v.(modalOpen := false, editing := None), step)
  }

  // ---------------------------------------------------------------------------
  // Row display

  /** The list area shows a spinner while loading, the rows when there are
      any, and an empty-state message otherwise. */
  datatype ListDisplay = Spinner | Rows(rows: seq<Transaction>) | NothingFound

  function Display(s: Store.StoreState): (d: ListDisplay)
    ensures d == Spinner <==> s.loading
    ensures d.Rows? ==> d.rows == s.transactions && |d.rows| > 0
    ensures d == NothingFound <==> !s.loading && s.transactions == []
  {
    if s.loading then Spinner
    else if |s.transactions| > 0 then Rows(s.transactions)
    else NothingFound
  }
  /** The first render: the store has nothing cached and no filter, so the
      list says "No transactions found", Clear is disabled, and a save from the
      closed modal would be an add. */
  lemma FirstRender()
    ensures Display(Store.InitialStore) == NothingFound
    ensures ClearDisabled(Store.InitialStore.filters)
    ensures !InitialView.modalOpen && InitialView.openMenu.None? && SaveTarget(InitialView) == AddTarget
  {
  }


  /** The amount as shown: prefixed with `-` for an expense, verbatim for an income. */
  function AmountText(t: Transaction): (text: string)
    ensures t.txType == Expense ==> text == "-" + t.amount
    ensures t.txType == Income ==> text == t.amount
  {
    (if t.txType == Expense then "-" else "") + t.amount
  }

  /** The label under the amount. */
  function TypeLabel(t: Transaction): (caption: string)
    ensures caption == "Expense" <==> t.txType == Expense
    ensures caption == "Income" <==> t.txType == Income
  {
    assert "Income"[0] != "Expense"[0];
    match t.txType
    case Expense => "Expense"
    case Income => "Income"
  }

  /** Reads the type and amount text back from a displayed label and amount. */
  function ReadDisplay(caption: string, text: string): Option<(TxType, string)> {
    if caption == "Expense" then
      if |text| > 0 && text[0] == '-' then Some((Expense, text[1..])) else None
    else if caption == "Income" then Some((Income, text))
    else None
  }

  /** A row's label and amount together lose nothing: the type and the exact
      amount text can be read back. */
  lemma DisplayRoundTrip(t: Transaction)
    ensures ReadDisplay(TypeLabel(t), AmountText(t)) == Some((t.txType, t.amount))
  {
  }
}

=== FILE: register_api.dfy ===
/** The `/api/register` POST handler (src/app/api/register/route.ts). Hashing
    and the connection pool are foreign code; what the handler does with them
    is recorded as a trace of effects, so that the connection discipline can be
    stated about every exit path. */
module RegisterApi {
  import opened Transactions
  import Http

  /** The parsed JSON body. The sign-up page also sends `name`; the handler
      never reads it. */
  datatype RegisterBody = RegisterBody(email: Option<string>, password: Option<string>, name: Option<string>)

  /** The database's answer to the INSERT ... RETURNING id, email. */
  datatype InsertAnswer = InsertedUser(id: string) | Rejected(code: string)

  /** What `pool.connect()` yields: no connection, or one on which the INSERT
      gets the given answer. */
  datatype Database = ConnectFails | Connected(answer: InsertAnswer)

  /** Effects in the order the handler performs them. */
  datatype Effect = Hash | Acquire | Query | Release

  datatype RegisterResponse =
    | Registered(id: string, email: string)
    | BadRequest(message: string)
    | ServerError(message: string)
    | Unhandled  // an exception outside the try block; the framework answers 500

  function RegisterStatus(r: RegisterResponse): (code: int)
    ensures Http.IsOk(code) <==> r.Registered?
    ensures r.Registered? ==> code == Http.StatusOk
    ensures code == Http.StatusBadRequest <==> r.BadRequest?
    ensures code == Http.StatusInternalError <==> r.ServerError? || r.Unhandled?
  {
    match r
    case Registered(_, _) => Http.StatusOk
    case BadRequest(_) => Http.StatusBadRequest
    case ServerError(_) => Http.StatusInternalError
    case Unhandled => Http.StatusInternalError
  }

  datatype RegisterRun = RegisterRun(response: RegisterResponse, effects: seq<Effect>)

  /** Postgres' SQLSTATE for a unique-constraint violation. */
  const UniqueViolation := "23505"

  // ---------------------------------------------------------------------------
  // Connection discipline

  /** Connections held after the first `n` effects: acquisitions minus releases. */
  function Held(effects: seq<Effect>, n: nat): int
    requires n <= |effects|
  {
    if n == 0 then 0
    else Held(effects, n - 1) + (if effects[n - 1] == Acquire then 1 else if effects[n - 1] == Release then -1 else 0)
  }

  /** Never release what was not acquired, query only while holding a
      connection, and hold none at the end. */
  predicate Disciplined(effects: seq<Effect>) {
    && (forall n :: 0 <= n <= |effects| ==> Held(effects, n) >= 0)
    && (forall i :: 0 <= i < |effects| && effects[i] == Query ==> Held(effects, i) > 0)
    && Held(effects, |effects|) == 0
  }

  /** Effects that neither take nor give back a connection. */
  predicate PoolNeutral(effects: seq<Effect>) {
    forall i :: 0 <= i < |effects| ==> effects[i] != Acquire && effects[i] != Release
  }

  /** `const client = await pool.connect(); try { work } finally { client.release(); }` */
  function Guarded(work: seq<Effect>): (r: seq<Effect>)
    ensures |r| == |work| + 2 && r[0] == Acquire && r[|r| - 1] == Release
    ensures r[1..|r| - 1] == work
  {
    [Acquire] + work + [Release]
  }

  /** Pool-neutral effects leave the count of held connections unchanged. */
  lemma {:induction false} HeldAcrossNeutral(effects: seq<Effect>, k: nat, n: nat)
    requires k <= n <= |effects|
    requires PoolNeutral(effects[k..n])
    ensures Held(effects, n) == Held(effects, k)
    decreases n
  {
    if n > k {
      assert effects[k..n - 1] == effects[k..n][..n - 1 - k];
      HeldAcrossNeutral(effects, k, n - 1);
      assert effects[n - 1] == effects[k..n][n - 1 - k];
    }
  }

  /** A trace that never touches the pool and never queries is disciplined. */
  lemma UnpooledDisciplined(effects: seq<Effect>)
    requires PoolNeutral(effects) && Query !in effects
    ensures Disciplined(effects)
  {
    forall n | 0 <= n <= |effects|
      ensures Held(effects, n) == 0
    {
      HeldAcrossNeutral(effects, 0, n);
    }
  }

  /** Pool-neutral effects followed by one try/finally around pool-neutral work
      form a disciplined trace: every query runs while the connection is held. */
  lemma GuardedDisciplined(before: seq<Effect>, work: seq<Effect>)
    requires PoolNeutral(before) && Query !in before && PoolNeutral(work)
    ensures Disciplined(before + Guarded(work))
  {
    var e := before + Guarded(work);
    var a := |before|;
    var z := |e| - 1;
    assert e[..a] == before;
    assert e[a + 1..z] == work;
    HeldAcrossNeutral(e, 0, a);
    HeldAcrossNeutral(e, a + 1, z);
    forall n | 0 <= n <= |e|
      ensures Held(e, n) == (if a < n <= z then 1 else 0)
    {
      if n <= a {
        assert e[0..n] == before[..n];
        HeldAcrossNeutral(e, 0, n);
      } else if n <= z {
        assert e[a + 1..n] == work[..n - a - 1];
        HeldAcrossNeutral(e, a + 1, n);
      }
    }
    assert forall i :: 0 <= i < a ==> e[i] == before[i];
  }

  // ---------------------------------------------------------------------------
  // The handler

  /** `POST /api/register`. */
  function Register(body: RegisterBody, db: Database): (r: RegisterRun)
    ensures !(Truthy(body.email) && Truthy(body.password)) ==>
      r == RegisterRun(BadRequest("Email and password required"), [])
    ensures r.response.Registered? <==>
      Truthy(body.email) && Truthy(body.password) && db.Connected? && db.answer.InsertedUser?
    ensures r.response.Registered? ==> r.response == Registered(db.answer.id, body.email.value)
    ensures r.response == BadRequest("Email already exists") <==>
      Truthy(body.email) && Truthy(body.password) && db == Connected(Rejected(UniqueViolation))
    ensures r.response.ServerError? <==>
      Truthy(body.email) && Truthy(body.password) && db.Connected? && db.answer.Rejected? && db.answer.code != UniqueViolation
    ensures Truthy(body.email) && Truthy(body.password) && db.ConnectFails? ==> r == RegisterRun(Unhandled, [Hash])
    ensures Truthy(body.email) && Truthy(body.password) && db.Connected? ==> r.effects == [Hash] + Guarded([Query])
    ensures Acquire in r.effects <==> Truthy(body.email) && Truthy(body.password) && db.Connected?
    ensures Hash in r.effects <==> Truthy(body.email) && Truthy(body.password)
    ensures Disciplined(r.effects)
  {
    if !(Truthy(body.email) && Truthy(body.password)) then
      UnpooledDisciplined([]);
      RegisterRun(BadRequest("Email and password required"), [])
    else
      match db
      case ConnectFails =>
        UnpooledDisciplined([Hash]);
        RegisterRun(Unhandled, [Hash])
      case Connected(answer) =>
        var effects := [Hash] + Guarded([Query]);
        GuardedDisciplined([Hash], [Query]);
        match answer
        case InsertedUser(id) => RegisterRun(Registered(id, body.email.value), effects)
        case Rejected(code) =>
          if code == UniqueViolation then RegisterRun(BadRequest("Email already exists"), effects)
          else RegisterRun(ServerError("Internal server error"), effects)
  }

  /** Every acquired connection is released, and released last, on every exit path. */
  lemma ReleasedOnEveryPath(body: RegisterBody, db: Database)
    ensures var e := Register(body, db).effects;
      Acquire in e ==> e[|e| - 1] == Release && multiset(e)[Acquire] == multiset(e)[Release]
  {
  }

  /** Only `email` and `password` are read: the `name` sent along changes nothing. */
  lemma RegisterIgnoresName(body: RegisterBody, name: Option<string>, db: Database)
    ensures Register(body.(name := name), db) == Register(body, db)
  {
  }
}

=== FILE: seqs.dfy ===
/** Generic sequence helpers shared by the client store and the API handlers. */
module Seqs {

  /** Keeps, in their original order, the elements of `xs` that satisfy `p`
      (JavaScript's `Array.prototype.filter`, SQL's `WHERE`). */
  function Filter<T(!new)>(xs: seq<T>, p: T -> bool): (r: seq<T>)
    ensures |r| <= |xs|
    ensures forall x :: x in r <==> x in xs && p(x)
  {
    if xs == [] then []
    else
      assert xs == [xs[0]] + xs[1..];
      (if p(xs[0]) then [xs[0]] else []) + Filter(xs[1..], p)
  }

  /** Filtering keeps every passing element as often as it occurs, and no other. */
  lemma {:induction false} FilterCounts<T(!new)>(xs: seq<T>, p: T -> bool)
    ensures forall x :: multiset(Filter(xs, p))[x] == (if p(x) then multiset(xs)[x] else 0)
  {
    if xs != [] {
      FilterCounts(xs[1..], p);
      assert xs == [xs[0]] + xs[1..];
      assert multiset(xs) == multiset([xs[0]]) + multiset(xs[1..]);
    }
  }

  /** Filtering keeps order: filtering a concatenation filters each part. */
  lemma {:induction false} FilterConcat<T(!new)>(a: seq<T>, b: seq<T>, p: T -> bool)
    ensures Filter(a + b, p) == Filter(a, p) + Filter(b, p)
  {
    if a == [] {
      assert a + b == b;
    } else {
      assert (a + b)[0] == a[0];
      assert (a + b)[1..] == a[1..] + b;
      FilterConcat(a[1..], b, p);
    }
  }

  /** Filtering twice with the same predicate is the same as filtering once. */
  lemma {:induction false} FilterIdempotent<T(!new)>(xs: seq<T>, p: T -> bool)
    ensures Filter(Filter(xs, p), p) == Filter(xs, p)
  {
    if xs != [] {
      var rest := Filter(xs[1..], p);
      FilterIdempotent(xs[1..], p);
      if p(xs[0]) {
        assert Filter(xs, p) == [xs[0]] + rest;
        assert ([xs[0]] + rest)[0] == xs[0];
        assert ([xs[0]] + rest)[1..] == rest;
      } else {
        assert Filter(xs, p) == rest;
      }
    }
  }

  /** A filter that every element passes is the identity. */
  lemma {:induction false} FilterKeepsAll<T(!new)>(xs: seq<T>, p: T -> bool)
    requires forall i :: 0 <= i < |xs| ==> p(xs[i])
    ensures Filter(xs, p) == xs
  {
    if xs != [] {
      FilterKeepsAll(xs[1..], p);
      assert [xs[0]] + xs[1..] == xs;
    }
  }

  /** A filter that no element passes leaves nothing. */
  lemma {:induction false} FilterDropsAll<T(!new)>(xs: seq<T>, p: T -> bool)
    requires forall i :: 0 <= i < |xs| ==> !p(xs[i])
    ensures Filter(xs, p) == []
  {
    if xs != [] {
      FilterDropsAll(xs[1..], p);
    }
  }

  /** Removing a stretch that no element of passes, wherever it sits, does not
      change the filter. */
  lemma FilterDropsMiddle<T(!new)>(a: seq<T>, m: seq<T>, b: seq<T>, p: T -> bool)
    requires forall i :: 0 <= i < |m| ==> !p(m[i])
    ensures Filter(a + m + b, p) == Filter(a + b, p)
  {
    calc {
      Filter(a + m + b, p);
      { FilterConcat(a + m, b, p); }
      Filter(a + m, p) + Filter(b, p);
      { FilterConcat(a, m, p); FilterDropsAll(m, p); }
      Filter(a, p) + [] + Filter(b, p);
      { assert Filter(a, p) + [] == Filter(a, p); FilterConcat(a, b, p); }
      Filter(a + b, p);
    }
  }
}

=== FILE: store.dfy ===
/** The client transaction store (src/container/TransactionContainer.tsx):
    the cached list, the loading flag and the three filters, with every
    server round trip modelled as one atomic transition that takes the reply
    as input. */
module Store {
  import opened Transactions
  import Http
  import Seqs

  /** The filter fields; `""` means "not set". */
  datatype Filters = Filters(category: string, from: string, to: string)

  const NoFilters := Filters("", "", "")

  datatype StoreState = StoreState(transactions: seq<Transaction>, loading: bool, filters: Filters)

  /** State on mount: nothing cached, not loading, no filter set. */
  const InitialStore := StoreState([], false, NoFilters)

  /** The result of one transition: the new state, and whether the store asked
      the router to navigate to `/login`. */
  datatype Step = Step(state: StoreState, redirectToLogin: bool)

  /** The mount-time effect: without a session the provider navigates to `/login`. */
  function MountRedirect(session: Option<UserId>): (redirect: bool)
    ensures redirect <==> session == None
  {
    !session.Some?
  }

  // ---------------------------------------------------------------------------
  // Filters and query parameters

  datatype FilterField = CategoryFilter | FromFilter | ToFilter

  function FieldValue(f: Filters, k: FilterField): string {
    match k
    case CategoryFilter => f.category
    case FromFilter => f.from
    case ToFilter => f.to
  }

  /** Position of a field in the fixed parameter order category, from, to. */
  function Rank(k: FilterField): nat {
    match k
    case CategoryFilter => 0
    case FromFilter => 1
    case ToFilter => 2
  }

  /** `setCategory` / `setFrom` / `setTo`: only the named filter changes. The
      re-fetch this triggers is a separate `Fetch` transition. */
  function SetFilter(s: StoreState, k: FilterField, v: string): (r: StoreState)
    ensures FieldValue(r.filters, k) == v
    ensures forall j :: j != k ==> FieldValue(r.filters, j) == FieldValue(s.filters, j)
    ensures r.transactions == s.transactions && r.loading == s.loading
  {
    match k
    case CategoryFilter => s.(filters := s.filters.(category := v))
    case FromFilter => s.(filters := s.filters.(from := v))
    case ToFilter => s.(filters := s.filters.(to := v))
  }

  /** One `URLSearchParams` entry. */
  datatype Param = Param(field: FilterField, value: string)

  /** The parameters `fetchTransactions` appends: exactly the non-empty filters,
      each with its own value, in the order category, from, to. */
  function QueryParams(f: Filters): (ps: seq<Param>)
    ensures forall i :: 0 <= i < |ps| ==> ps[i].value == FieldValue(f, ps[i].field) && ps[i].value != ""
    ensures forall i, j :: 0 <= i < j < |ps| ==> Rank(ps[i].field) < Rank(ps[j].field)
    ensures forall k :: FieldValue(f, k) != "" <==> Param(k, FieldValue(f, k)) in ps
  {
    (if f.category != "" then [Param(CategoryFilter, f.category)] else [])
    + (if f.from != "" then [Param(FromFilter, f.from)] else [])
    + (if f.to != "" then [Param(ToFilter, f.to)] else [])
  }

  /** `URLSearchParams.get(key) ?? ""`: the first value under `key`. */
  function Lookup(ps: seq<Param>, k: FilterField): string {
    if ps == [] then ""
    else if ps[0].field == k then ps[0].value
    else Lookup(ps[1..], k)
  }

  /** Reads filters back from a parameter list, an absent key meaning "". */
  function ParseParams(ps: seq<Param>): Filters {
    Filters(Lookup(ps, CategoryFilter), Lookup(ps, FromFilter), Lookup(ps, ToFilter))
  }

  /** `Lookup` finds the value of a key whose entries all agree, and "" for a
      key with no entry. */
  lemma {:induction false} LookupAgreeing(ps: seq<Param>, k: FilterField, v: string)
    requires forall i :: 0 <= i < |ps| && ps[i].field == k ==> ps[i].value == v
    ensures Param(k, v) in ps ==> Lookup(ps, k) == v
    ensures (forall i :: 0 <= i < |ps| ==> ps[i].field != k) ==> Lookup(ps, k) == ""
  {
    if ps != [] && ps[0].field != k {
      LookupAgreeing(ps[1..], k, v);
      assert Param(k, v) in ps ==> Param(k, v) in ps[1..];
    }
  }

  /** The query parameters lose nothing: reading them back gives the filters. */
  lemma ParamsRoundTrip(f: Filters)
    ensures ParseParams(QueryParams(f)) == f
  {
    var ps := QueryParams(f);
    forall k: FilterField
      ensures Lookup(ps, k) == FieldValue(f, k)
    {
      LookupAgreeing(ps, k, FieldValue(f, k));
    }
    assert Lookup(ps, CategoryFilter) == f.category;
    assert Lookup(ps, FromFilter) == f.from;
    assert Lookup(ps, ToFilter) == f.to;
  }

  /** Consequently different filters always produce different queries. */
  lemma QueryParamsInjective(f: Filters, g: Filters)
    ensures QueryParams(f) == QueryParams(g) <==> f == g
  {
    if QueryParams(f) == QueryParams(g) {
      ParamsRoundTrip(f);
      ParamsRoundTrip(g);
    }
  }

  /** `clearFilters`: all three filters become "", nothing else changes. */
  function ClearFilters(s: StoreState): (r: StoreState)
    ensures forall k :: FieldValue(r.filters, k) == ""
    ensures QueryParams(r.filters) == []
    ensures r.transactions == s.transactions && r.loading == s.loading
  {
    s.(filters := NoFilters)
  }

  lemma ClearFiltersIdempotent(s: StoreState)
    ensures ClearFilters(ClearFilters(s)) == ClearFilters(s)
    ensures s.filters == NoFilters ==> ClearFilters(s) == s
  {
  }

  // ---------------------------------------------------------------------------
  // Fetching the list

  /** The parsed JSON body of a list reply; `transactions` may be absent (a 401
      or 400 body carries only a message). */
  datatype ListBody = ListBody(transactions: Option<seq<Transaction>>)

  /** How a list request ends: `fetch` rejects, or a reply arrives whose body
      parses (`Some`) or not (`None`, `res.json()` throws). */
  datatype FetchOutcome = FetchFailed | FetchReplied(status: int, body: Option<ListBody>)

  /** The state while the list request is in flight. */
  function StartFetch(s: StoreState): (r: StoreState)
    ensures r.loading
    ensures r.transactions == s.transactions && r.filters == s.filters
  {
    s.(loading := true)
  }

  /** Applies a list outcome: a parsed body replaces the list with its
      `transactions` (or empties it when absent), whatever the status; a 401
      asks for `/login`; `loading` ends false on every path. */
  function CompleteFetch(s: StoreState, o: FetchOutcome): (r: Step)
    ensures !r.state.loading && r.state.filters == s.filters
    ensures r.redirectToLogin <==> o.FetchReplied? && o.status == Http.StatusUnauthorized
    ensures o.FetchReplied? && o.body.Some? ==> r.state.transactions == Coalesce(o.body.value.transactions, [])
    ensures o.FetchFailed? || o.body.None? ==> r.state.transactions == s.transactions
  {
    match o
    case FetchFailed => Step(s.(loading := false), false)
    case FetchReplied(status, body) =>
      var list := match body
        case Some(b) => Coalesce(b.transactions, [])
        case None => s.transactions;
      Step(s.(transactions := list, loading := false), status == Http.StatusUnauthorized)
  }

  /** `fetchTransactions` as one transition. Without a client session it does
      nothing at all. The request carries `QueryParams(s.filters)`. */
  function Fetch(s: StoreState, session: Option<UserId>, o: FetchOutcome): (r: Step)
    ensures session.None? ==> r == Step(s, false)
    ensures session.Some? ==> !r.state.loading && r.state.filters == s.filters
    ensures session.Some? ==> (r.redirectToLogin <==> o.FetchReplied? && o.status == Http.StatusUnauthorized)
    ensures session.Some? && o.FetchReplied? && o.body.Some? ==>
      r.state.transactions == Coalesce(o.body.value.transactions, [])
    ensures session.Some? && (o.FetchFailed? || o.body.None?) ==> r.state.transactions == s.transactions
  {
    if session.None? then Step(s, false) else CompleteFetch(StartFetch(s), o)
  }

  /** A 401 body has no `transactions`, so it both redirects and empties the list. */
  lemma UnauthorizedFetchEmptiesList(s: StoreState, u: UserId)
    ensures var r := Fetch(s, Some(u), FetchReplied(Http.StatusUnauthorized, Some(ListBody(None))));
      r.redirectToLogin && r.state.transactions == [] && !r.state.loading
  {
  }

  // ---------------------------------------------------------------------------
  // Create, update, delete

  /** How a create/update/delete request ends. `saved` models the
      `data.transaction` the store reads from an ok reply (`None` when the body
      does not parse). The POST handler actually answers `{success: true}`,
      which has no such field; the store is modelled against the record it
      expects. */
  datatype Reply = NoReply | Replied(status: int, saved: Option<Transaction>)

  /** Whether the store applies the reply to its list: the status is ok and the
      body parsed. */
  predicate Applies(rep: Reply) {
    rep.Replied? && Http.IsOk(rep.status) && rep.saved.Some?
  }

  predicate Unauthorized(rep: Reply) {
    rep.Replied? && rep.status == Http.StatusUnauthorized
  }

  /** Every entry whose id equals `id` replaced by `rec`; the rest untouched. */
  function ReplaceById(xs: seq<Transaction>, id: Id, rec: Transaction): (r: seq<Transaction>)
    ensures |r| == |xs|
    ensures forall i :: 0 <= i < |xs| && xs[i].id == id ==> r[i] == rec
    ensures forall i :: 0 <= i < |xs| && xs[i].id != id ==> r[i] == xs[i]
  {
    if xs == [] then []
    else [if xs[0].id == id then rec else xs[0]] + ReplaceById(xs[1..], id, rec)
  }

  /** Every entry whose id equals `id` dropped; the rest kept in order. */
  function RemoveById(xs: seq<Transaction>, id: Id): (r: seq<Transaction>)
    ensures forall t :: t in r <==> t in xs && t.id != id
  {
    Seqs.Filter(xs, (t: Transaction) => t.id != id)
  }

  /** `addTransaction`: an applied reply prepends the returned record. */
  function AddTransaction(s: StoreState, rep: Reply): (r: Step)
    ensures Applies(rep) ==> r.state.transactions == [rep.saved.value] + s.transactions
    ensures !Applies(rep) ==> r.state.transactions == s.transactions
    ensures r.redirectToLogin <==> Unauthorized(rep)
    ensures r.state.loading == s.loading && r.state.filters == s.filters
  {
    var list := if Applies(rep) then [rep.saved.value] + s.transactions else s.transactions;
    Step(s.(transactions := list), Unauthorized(rep))
  }

  /** `updateTransaction(t)`: an applied reply replaces the entries with `t.id`
      by the returned record, keeping length and order. */
  function UpdateTransaction(s: StoreState, t: Transaction, rep: Reply): (r: Step)
    ensures |r.state.transactions| == |s.transactions|
    ensures Applies(rep) ==> forall i :: 0 <= i < |s.transactions| ==>
      r.state.transactions[i] == (if s.transactions[i].id == t.id then rep.saved.value else s.transactions[i])
    ensures !Applies(rep) ==> r.state.transactions == s.transactions
    ensures r.redirectToLogin <==> Unauthorized(rep)
    ensures r.state.loading == s.loading && r.state.filters == s.filters
  {
    var list := if Applies(rep) then ReplaceById(s.transactions, t.id, rep.saved.value) else s.transactions;
    Step(s.(transactions := list), Unauthorized(rep))
  }

  /** `deleteTransaction(id)`: an ok reply drops the entries with `id`; the
      reply body is never read. */
  function DeleteTransaction(s: StoreState, id: Id, rep: Reply): (r: Step)
    ensures rep.Replied? && Http.IsOk(rep.status) ==>
      r.state.transactions == RemoveById(s.transactions, id)
    ensures rep.Replied? && Http.IsOk(rep.status) ==>
      forall t :: t in r.state.transactions <==> t in s.transactions && t.id != id
    ensures !(rep.Replied? && Http.IsOk(rep.status)) ==> r.state.transactions == s.transactions
    ensures r.redirectToLogin <==> Unauthorized(rep)
    ensures r.state.loading == s.loading && r.state.filters == s.filters
  {
    var ok := rep.Replied? && Http.IsOk(rep.status);
    var list := if ok then RemoveById(s.transactions, id) else s.transactions;
    Step(s.(transactions := list), Unauthorized(rep))
  }

  // ---------------------------------------------------------------------------
  // Algebra of the list updates

  /** Deleting keeps the survivors in order: it distributes over concatenation. */
  lemma RemoveByIdConcat(a: seq<Transaction>, b: seq<Transaction>, id: Id)
    ensures RemoveById(a + b, id) == RemoveById(a, id) + RemoveById(b, id)
  {
    Seqs.FilterConcat(a, b, (t: Transaction) => t.id != id);
  }

  /** Deleting twice gives the same list as deleting once. */
  lemma RemoveByIdIdempotent(xs: seq<Transaction>, id: Id)
    ensures RemoveById(RemoveById(xs, id), id) == RemoveById(xs, id)
  {
    Seqs.FilterIdempotent(xs, (t: Transaction) => t.id != id);
  }

  /** Deleting an id that no entry carries leaves the list as it is. */
  lemma RemoveAbsentId(xs: seq<Transaction>, id: Id)
    requires forall i :: 0 <= i < |xs| ==> xs[i].id != id
    ensures RemoveById(xs, id) == xs
  {
    Seqs.FilterKeepsAll(xs, (t: Transaction) => t.id != id);
  }

  /** Replacing twice with the same record is replacing once. */
  lemma ReplaceByIdIdempotent(xs: seq<Transaction>, id: Id, rec: Transaction)
    ensures ReplaceById(ReplaceById(xs, id, rec), id, rec) == ReplaceById(xs, id, rec)
  {
  }

  /** An update that keeps the id, followed by a delete of that id, is the
      delete alone: nothing of the updated entries survives. */
  lemma {:induction false} DeleteAfterUpdate(xs: seq<Transaction>, id: Id, rec: Transaction)
    requires rec.id == id
    ensures RemoveById(ReplaceById(xs, id, rec), id) == RemoveById(xs, id)
  {
    var p := (t: Transaction) => t.id != id;
    if xs != [] {
      var head := if xs[0].id == id then rec else xs[0];
      var tail := ReplaceById(xs[1..], id, rec);
      var ys := [head] + tail;
      assert ReplaceById(xs, id, rec) == ys;
      assert ys[0] == head && ys[1..] == tail;
      assert p(head) == p(xs[0]);
      DeleteAfterUpdate(xs[1..], id, rec);
      calc {
        Seqs.Filter(ys, p);
        (if p(head) then [head] else []) + Seqs.Filter(tail, p);
        { assert Seqs.Filter(tail, p) == Seqs.Filter(xs[1..], p); }
        (if p(xs[0]) then [xs[0]] else []) + Seqs.Filter(xs[1..], p);
        Seqs.Filter(xs, p);
      }
    }
  }

  /** Deleting the id of a just-added record undoes the add when that id was
      not cached before. */
  lemma DeleteUndoesAdd(s: StoreState, rep: Reply, del: Reply)
    requires Applies(rep) && del.Replied? && Http.IsOk(del.status)
    requires forall i :: 0 <= i < |s.transactions| ==> s.transactions[i].id != rep.saved.value.id
    ensures DeleteTransaction(AddTransaction(s, rep).state, rep.saved.value.id, del).state == s
  {
    var rec := rep.saved.value;
    RemoveByIdConcat([rec], s.transactions, rec.id);
    RemoveAbsentId(s.transactions, rec.id);
    assert RemoveById([rec], rec.id) == [];
  }
}

=== FILE: transaction.dfy ===
/** The `Transaction` record every part of the subsystem operates on
    (src/types/transaction.ts), and the JavaScript truthiness of the optional
    text fields carried around it. */
module Transactions {

  /** A value that may be `null` or `undefined` in the source. */
  datatype Option<T> = None | Some(value: T)

  /** JavaScript's `o ?? fallback`. */
  function Coalesce<T>(o: Option<T>, fallback: T): T {
    if o.Some? then o.value else fallback
  }

  type Id = string
  type UserId = string

  /** The only two type tags a transaction can carry. */
  datatype TxType = Income | Expense

  /** The JSON tag of a type. */
  function TypeTag(t: TxType): (s: string)
    ensures s != ""
    ensures ParseTypeTag(s) == Some(t)
  {
    match t
    case Income => "income"
    case Expense => "expense"
  }

  /** Reads a JSON tag back; every string other than the two tags is rejected. */
  function ParseTypeTag(s: string): (r: Option<TxType>)
    ensures r.Some? <==> s == "income" || s == "expense"
  {
    if s == "income" then Some(Income)
    else if s == "expense" then Some(Expense)
    else None
  }

  /** Two distinct types never share a tag, so a tag identifies its type. */
  lemma TypeTagInjective(a: TxType, b: TxType)
    ensures TypeTag(a) == TypeTag(b) <==> a == b
  {
  }

  /** A transaction as the server returns it. `amount` is the decimal text of a
      Postgres NUMERIC and is never converted to a number; `description` may be
      null; `date` and `createdAt` are ISO-8601 text. */
  datatype Transaction = Transaction(
    id: Id,
    title: string,
    userId: UserId,
    txType: TxType,
    amount: string,
    category: string,
    description: Option<string>,
    date: string,
    createdAt: string
  )

  /** JavaScript truthiness of an optional string field: absent, null and ""
      are all falsy. */
  predicate Truthy(s: Option<string>) {
    s.Some? && s.value != ""
  }

  /** `s.split("T")[0]`: the prefix of `s` before its first `T`, or all of `s`
      when it has none. */
  function DatePart(s: string): (r: string)
    ensures r <= s
    ensures 'T' !in r
    ensures |r| < |s| ==> s[|r|] == 'T'
  {
    if s == [] then []
    else if s[0] == 'T' then []
    else [s[0]] + DatePart(s[1..])
  }

  /** The three facts above pin `DatePart` down: any T-free prefix that stops at
      the end of `s` or at a `T` is the date part. */
  lemma DatePartUnique(s: string, r: string)
    requires r <= s && 'T' !in r
    requires |r| == |s| || s[|r|] == 'T'
    ensures r == DatePart(s)
  {
  }

  /** A date without a time part is left as it is; cutting twice is cutting once. */
  lemma DatePartFacts(s: string)
    ensures 'T' !in s ==> DatePart(s) == s
    ensures DatePart(DatePart(s)) == DatePart(s)
  {
  }

  /** `date ? date.split("T")[0] : ""`, the date shown by the list and
      prefilled by the form. The emptiness guard changes nothing. */
  function DisplayDate(date: string): (r: string)
    ensures r == DatePart(date)
  {
    if date == "" then "" else DatePart(date)
  }
}

=== FILE: transactions_api.dfy ===
/** The `/api/transactions` route handlers (src/app/api/transactions/route.ts).
    The session is an `Option<UserId>` resolved before the handler runs, the
    table is a sequence of rows, and the database's answer to a statement is an
    input. */
module TransactionsApi {
  import opened Transactions
  import Http
  import Seqs

  // ---------------------------------------------------------------------------
  // GET

  /** The handler's possible answers: 200 `{transactions}`, 401 `{message}`,
      400 `{error}`. */
  datatype ListResponse = Listed(rows: seq<Transaction>) | ListUnauthorized | ListFailed

  function ListStatus(r: ListResponse): (code: int)
    ensures Http.IsOk(code) <==> r.Listed?
    ensures r.Listed? ==> code == Http.StatusOk
    ensures code == Http.StatusUnauthorized <==> r == ListUnauthorized
    ensures code == Http.StatusBadRequest <==> r == ListFailed
  {
    match r
    case Listed(_) => Http.StatusOk
    case ListUnauthorized => Http.StatusUnauthorized
    case ListFailed => Http.StatusBadRequest
  }

  /** `SELECT * FROM transactions WHERE user_id = $1`, in storage order. */
  function OwnedRows(db: seq<Transaction>, owner: UserId): (r: seq<Transaction>)
    ensures forall t :: t in r <==> t in db && t.userId == owner
    ensures forall t: Transaction :: t.userId == owner ==> multiset(r)[t] == multiset(db)[t]
  {
    Seqs.FilterCounts(db, (t: Transaction) => t.userId == owner);
    Seqs.Filter(db, (t: Transaction) => t.userId == owner)
  }

  /** `GET`: with no session, 401 whatever the table holds; otherwise the
      owner's rows, or 400 when the query fails. The handler takes no request,
      so the client's filters never reach it. */
  function List(session: Option<UserId>, db: seq<Transaction>, queryOk: bool): (r: ListResponse)
    ensures session.None? <==> r == ListUnauthorized
    ensures r == ListFailed <==> session.Some? && !queryOk
    ensures r.Listed? ==> forall t :: t in r.rows <==> t in db && t.userId == session.value
    ensures r.Listed? ==> forall t: Transaction :: t.userId == session.value ==> multiset(r.rows)[t] == multiset(db)[t]
  {
    match session
    case None => ListUnauthorized
    case Some(owner) => if queryOk then Listed(OwnedRows(db, owner)) else ListFailed
  }

  /** No user ever sees another user's rows, and the answer for one user does
      not depend on anything other users own. */
  lemma ListIsolation(owner: UserId, db1: seq<Transaction>, other: seq<Transaction>, db2: seq<Transaction>, queryOk: bool)
    requires forall i :: 0 <= i < |other| ==> other[i].userId != owner
    ensures List(Some(owner), db1 + other + db2, queryOk) == List(Some(owner), db1 + db2, queryOk)
  {
    Seqs.FilterDropsMiddle(db1, other, db2, (t: Transaction) => t.userId == owner);
  }

  // ---------------------------------------------------------------------------
  // POST

  /** The JSON body after `req.json()`: every field may be absent. A
      client-supplied `user_id` is representable but never read. */
  datatype Payload = Payload(
    txType: Option<string>,
    amount: Option<string>,
    category: Option<string>,
    description: Option<string>,
    title: Option<string>,
    date: Option<string>,
    userId: Option<string>
  )

  datatype RequestBody = Malformed | Json(payload: Payload)

  /** The handler's required-field test: `type`, `amount`, `category`, `date`
      and `title` must all be truthy; `description` is optional. */
  predicate HasRequiredFields(p: Payload) {
    Truthy(p.txType) && Truthy(p.amount) && Truthy(p.category) && Truthy(p.date) && Truthy(p.title)
  }

  /** The parameters bound to the INSERT, owner first. */
  datatype NewRow = NewRow(
    userId: UserId,
    txType: string,
    amount: string,
    category: string,
    description: Option<string>,
    title: string,
    date: string
  )

  /** An INSERT statement's shape: the columns it lists and the number of `$n`
      placeholders in its VALUES clause. */
  datatype InsertStatement = InsertStatement(columns: seq<string>, placeholders: nat)

  const RowColumns: seq<string> := ["user_id", "type", "amount", "category", "description", "title", "date"]

  /** Postgres runs a parameterised INSERT only when the column list, the
      placeholders and the bound parameters all have the same length. */
  predicate Executes(stmt: InsertStatement, params: nat) {
    |stmt.columns| == stmt.placeholders == params
  }

  /** The statement as written: seven columns, `VALUES ($1, ..., $6)`. */
  const InsertAsWritten := InsertStatement(RowColumns, 6)

  /** The statement with one placeholder per column. */
  const InsertFixed := InsertStatement(RowColumns, 7)

  datatype PostResponse = Created | PostUnauthorized | MissingFields | PostFailed

  function PostStatus(r: PostResponse): (code: int)
    ensures Http.IsOk(code) <==> r == Created
    ensures code == Http.StatusUnauthorized <==> r == PostUnauthorized
    ensures code == Http.StatusBadRequest <==> r == MissingFields
    ensures code == Http.StatusInternalError <==> r == PostFailed
    ensures r == Created ==> code == Http.StatusCreated
  {
    match r
    case Created => Http.StatusCreated
    case PostUnauthorized => Http.StatusUnauthorized
    case MissingFields => Http.StatusBadRequest
    case PostFailed => Http.StatusInternalError
  }

  /** What a POST did: the answer, and the row it committed, if any. */
  datatype PostRun = PostRun(response: PostResponse, inserted: Option<NewRow>)

  /** The row a payload turns into; its owner always comes from the session. */
  function RowFor(owner: UserId, p: Payload): (row: NewRow)
    requires HasRequiredFields(p)
    ensures row.userId == owner
    ensures Some(row.txType) == p.txType && Some(row.amount) == p.amount && Some(row.category) == p.category
    ensures Some(row.title) == p.title && Some(row.date) == p.date && row.description == p.description
  {
    NewRow(owner, p.txType.value, p.amount.value, p.category.value, p.description, p.title.value, p.date.value)
  }

  /** The POST handler run with a given INSERT statement; `dbAccepts` is the
      database's verdict on a well-formed insert (constraint violations and
      connection errors make it false). */
  function PostWith(stmt: InsertStatement, session: Option<UserId>, body: RequestBody, dbAccepts: bool): (r: PostRun)
    ensures session.None? ==> r == PostRun(PostUnauthorized, None)
    ensures session.Some? && body.Malformed? ==> r == PostRun(PostFailed, None)
    ensures session.Some? && body.Json? && !HasRequiredFields(body.payload) ==> r == PostRun(MissingFields, None)
    ensures r.inserted.Some? <==> r.response == Created
    ensures r.response == Created <==>
      session.Some? && body.Json? && HasRequiredFields(body.payload) && Executes(stmt, |RowColumns|) && dbAccepts
    ensures r.inserted.Some? ==> r.inserted.value == RowFor(session.value, body.payload)
    ensures session.Some? && body.Json? && HasRequiredFields(body.payload) && !(Executes(stmt, |RowColumns|) && dbAccepts) ==>
      r == PostRun(PostFailed, None)
  {
    match session
    case None => PostRun(PostUnauthorized, None)
    case Some(owner) =>
      match body
      case Malformed => PostRun(PostFailed, None)
      case Json(p) =>
        if !HasRequiredFields(p) then PostRun(MissingFields, None)
        else if Executes(stmt, |RowColumns|) && dbAccepts then PostRun(Created, Some(RowFor(owner, p)))
        else PostRun(PostFailed, None)
  }

  /** `POST` exactly as written. The session gate and the field check work,
      but the placeholder count does not match the column count, so no request
      ever creates a transaction: even a complete payload from a signed-in
      user gets 500. */
  function PostAsWritten(session: Option<UserId>, body: RequestBody, dbAccepts: bool): (r: PostRun)
    ensures session.None? ==> r == PostRun(PostUnauthorized, None)
    ensures session.Some? && body.Json? && !HasRequiredFields(body.payload) ==> r == PostRun(MissingFields, None)
    ensures r.response != Created && r.inserted == None
    ensures session.Some? && (body.Malformed? || HasRequiredFields(body.payload)) ==> r == PostRun(PostFailed, None)
  {
    assert !Executes(InsertAsWritten, |RowColumns|);
    PostWith(InsertAsWritten, session, body, dbAccepts)
  }

  /** A coffee expense of 4.50 on 2024-01-05. */
  const Coffee := Payload(Some("expense"), Some("4.50"), Some("food"), None, Some("Coffee"), Some("2024-01-05"), None)

  /** The discrepancy on one input: as written the coffee is refused with 500
      and nothing is stored; with one placeholder per column it is created
      under the session's user. */
  lemma CoffeePost(owner: UserId)
    ensures PostAsWritten(Some(owner), Json(Coffee), true) == PostRun(PostFailed, None)
    ensures Post(Some(owner), Json(Coffee), true).response == Created
    ensures Post(Some(owner), Json(Coffee), true).inserted ==
      Some(NewRow(owner, "expense", "4.50", "food", None, "Coffee", "2024-01-05"))
  {
  }

  /** `POST` with the intended statement: a signed-in user's complete payload
      is inserted under the session's user id and answered with 201. */
  function Post(session: Option<UserId>, body: RequestBody, dbAccepts: bool): (r: PostRun)
    ensures r.response == Created <==>
      session.Some? && body.Json? && HasRequiredFields(body.payload) && dbAccepts
    ensures r.inserted.Some? <==> r.response == Created
    ensures r.inserted.Some? ==> r.inserted.value == RowFor(session.value, body.payload)
    ensures r.inserted.Some? ==> r.inserted.value.userId == session.value
    ensures session.None? ==> r == PostRun(PostUnauthorized, None)
    ensures session.Some? && body.Json? && !HasRequiredFields(body.payload) ==> r == PostRun(MissingFields, None)
    ensures session.Some? && (body.Malformed? || (HasRequiredFields(body.payload) && !dbAccepts)) ==>
      r == PostRun(PostFailed, None)
  {
    assert Executes(InsertFixed, |RowColumns|);
    PostWith(InsertFixed, session, body, dbAccepts)
  }

  /** The owner of an inserted row never depends on the payload's `user_id`. */
  lemma PostIgnoresPayloadOwner(session: Option<UserId>, p: Payload, claimed: Option<string>, dbAccepts: bool)
    ensures Post(session, Json(p.(userId := claimed)), dbAccepts) == Post(session, Json(p), dbAccepts)
  {
  }

  /** The stored record for a committed row, once the database has assigned
      `id` and `created_at`; `None` when the type text is not one of the two
      tags the record type admits. */
  function Stored(row: NewRow, id: Id, createdAt: string): (r: Option<Transaction>)
    ensures r.Some? <==> ParseTypeTag(row.txType).Some?
    ensures r.Some? ==> r.value.userId == row.userId && r.value.id == id && TypeTag(r.value.txType) == row.txType
  {
    match ParseTypeTag(row.txType)
    case None => None
    case Some(t) =>
      Some(Transaction(id, row.title, row.userId, t, row.amount, row.category, row.description, row.date, createdAt))
  }

  /** A created transaction shows up in its owner's next listing, wherever the
      table put it among the other rows, and in nobody else's. */
  lemma CreateThenList(owner: UserId, body: RequestBody, before: seq<Transaction>, after: seq<Transaction>, id: Id, createdAt: string, other: UserId)
    requires Post(Some(owner), body, true).response == Created
    requires Stored(Post(Some(owner), body, true).inserted.value, id, createdAt).Some?
    requires other != owner
    ensures var t := Stored(Post(Some(owner), body, true).inserted.value, id, createdAt).value;
      var db' := before + [t] + after;
      t in List(Some(owner), db', true).rows && t !in List(Some(other), db', true).rows
  {
  }
}
